=== FILE: README.md ===
# VoiceSearch capture session, modelled in Dafny

This project models the behavioural core of the `VoiceSearch` React component:
a microphone button that runs one browser speech-recognition session per
click, meters the microphone volume while listening, and tears all of this
down on every exit path. It also models the hydration-warning helpers that
ship beside it.

The model is functional. The component's React state and refs form one
immutable `Session.State` record:

- whether it is listening;
- the held recognition instance, with its id, configuration, and whether its handlers are still set;
- the instances discarded so far;
- the microphone stream (none, live, or tracks stopped but still referenced);
- whether an audio context and an analyser are held;
- the animation flags and the volume;
- the number of pending delayed-cleanup timers.

Every user click, recognition event, timer expiry, animation frame and the
unmount is an `Event`, and `Session.Step` is the pure transition for it. What
the browser decides becomes a parameter of the event. That covers whether a
constructor exists, whether `start()` throws, whether the microphone is
granted, and what a recognition event carries. A step returns the next state
and the calls it makes on the embedding application: `Report` for the
`Error` callback and `Search` for `handleSearch`.

Modules:

- `Strings`: substring search and ASCII lower-casing.
- `Detection`: the support and Android checks run at mount.
- `Messages`: the user-facing strings and the error-code classification.
- `Volume`: the volume normalisation and the pulse-ring geometry.
- `Session`: the state record, the teardown functions, `toggleListening`, the four recognition handlers, and the invariant `Valid`.
- `SessionProofs`: invariant preservation, trace lemmas, and scenarios that hold in every supported non-Android browser where every audio request is granted.
- `Hydration`: the `console.error` filter, its install and cleanup, and `withSuppressHydration`.

Behaviour of the code that a reader might not expect, all of it modelled as written:

- The delayed cleanup (`aggressiveAudioCleanup` after 300 ms, src/VoiceSearch.jsx:244-247) acts on whatever the refs hold when it fires. So a stop followed by a new start within 300 ms loses the new session's stream, audio context and analyser while recognition keeps listening. `SessionProofs.DelayedCleanupHitsNewSession` exhibits this trace.
- A second click while listening only stops. It does not restart. A third click starts an independent session (`SessionProofs.RestartScenario`).
- The fast teardown path stops the microphone tracks but keeps the audio context. The unmount cleanup cancels the delayed cleanup it has just scheduled, so a context acquired by a session is never closed after unmount (`SessionProofs.UnmountLeavesContextOpen`).
- A failed construction reports "Speech recognition not available. Please try a different browser." and leaves the component idle. A throwing `start()` reports "Failed to start speech recognition. Please try again." and runs the full teardown, which schedules a delayed cleanup.
- `onresult` has no emptiness check: an empty transcript is passed to `handleSearch`.
- On the user-agent parser path the Firefox/Opera test is case-sensitive. On the fallback path it runs on the lower-cased user agent (`Detection.ParserPathIsCaseSensitive`).

## Model

| member | source | states |
|---|---|---|
| Strings.Contains | src/VoiceSearch.jsx:70-72 | `s.includes(p)` / `indexOf(p) > -1` holds exactly when `p` occurs at some index of `s` |
| Strings.ToLower | src/VoiceSearch.jsx:82 | lower-casing keeps the length, turns every upper-case ASCII letter into its own lower-case letter (code point + 32) and changes nothing else |
| Strings.ContainsLowered | src/VoiceSearch.jsx:82-83 | an occurrence of `p` in `s` survives lower-casing both sides |
| Detection.IsFirefoxOrOpera | src/VoiceSearch.jsx:57-75 | on the parser path: the browser name includes "Firefox" or "Opera" (an undefined name matches nothing); when the parser throws: the lower-cased user agent includes "firefox" or "opera" |
| Detection.IsSupported | src/VoiceSearch.jsx:54-76 | supported iff running in a browser, a recognition constructor exists and the browser is neither Firefox nor Opera |
| Detection.IsAndroid | src/VoiceSearch.jsx:79-84 | Android iff running in a browser and the lower-cased user agent contains "android" |
| Detection.AndroidDetectionIgnoresCase | src/VoiceSearch.jsx:82-83 | a user agent and its lower-cased form are classified alike |
| Detection.AndroidInAnyCase | src/VoiceSearch.jsx:82-83 | a user agent holding, at some position, seven characters that lower-case to "android" (any capitalisation of the word) is detected as Android |
| Detection.FallbackIgnoresCase | src/VoiceSearch.jsx:69-72 | when the parser throws, a user agent and its lower-cased form are judged alike |
| Detection.FallbackExcludesAnyCase | src/VoiceSearch.jsx:69-74 | when the parser throws, "firefox" or "opera" in any capitalisation anywhere in the user agent marks the browser excluded and recognition unsupported |
| Detection.ParserPathIsCaseSensitive | src/VoiceSearch.jsx:61-72 | a parsed name "firefox" is not excluded, while "Firefox" in a user agent is excluded when the parser throws |
| Messages.ErrorMessage | src/VoiceSearch.jsx:399-419 | "no-speech", "audio-capture", "not-allowed" and "network" map to their exact messages; "aborted" reports nothing; any other code reports the generic message iff not on Android |
| Messages.NoMatchMessage | src/VoiceSearch.jsx:428-433 | the no-match message is reported iff not on Android |
| Messages.AndroidSilencesOnlyUnlistedCodes | src/VoiceSearch.jsx:399-419 | Android changes the outcome exactly for codes that are neither listed nor "aborted" |
| Messages.KnownMessagesDistinct | src/VoiceSearch.jsx:400-411 | the four listed codes have pairwise distinct messages, none of them the generic one |
| Volume.SumBounds | src/VoiceSearch.jsx:323-326 | the bin total is zero iff every bin is zero, and at most 255 per bin |
| Volume.NormalizedVolume | src/VoiceSearch.jsx:322-330 | the mean bin magnitude scaled by 1.5 and clamped is a percentage in [0, 100], and 0 for a silent buffer |
| Volume.VolumeRange | src/VoiceSearch.jsx:327-330 | the normalised volume lies in [0, 100]; it is 0 iff all bins are 0; it is 100 iff the mean reaches 200/3 |
| Volume.MeasureVolume | src/VoiceSearch.jsx:318-330 | the index loop's sum, averaged, scaled by 1.5 and clamped, equals the normalised volume of the buffer, a value in [0, 100] |
| Volume.PulseSize | src/VoiceSearch.jsx:520 | the ring scale is 1 when idle, at least 1 while listening, and exactly 1 + volume/100 for a non-negative volume |
| Volume.PulseOpacity | src/VoiceSearch.jsx:521 | the opacity is 0 when idle, at most 0.5 while listening, and exactly volume/200 + 0.2 below the cap |
| Volume.PulseBounds | src/VoiceSearch.jsx:520-521 | for volumes in [0, 100] the scale stays in [1, 2] and the opacity in [0.2, 0.5], both monotone in the volume; the scale is 1 only at volume 0 |
| Session.MountEnv | src/VoiceSearch.jsx:54-84 | the mount effects record support iff in a browser with a recognition constructor that is neither Firefox nor Opera, and Android iff in a browser whose lower-cased user agent contains "android" |
| Session.Retire | src/VoiceSearch.jsx:196-223 | a discarded instance keeps its id and configuration, is cancelled and has no handlers left |
| Session.CleanupAnimation | src/VoiceSearch.jsx:87-96 | afterwards no frame is pending and animation is off; a state already in that condition is unchanged; the audio refs, volume and recognition side are untouched |
| Session.CleanupAudioTracks | src/VoiceSearch.jsx:99-114 | a live stream's tracks are stopped while the ref is kept; without a live stream nothing changes; no other field changes |
| Session.DestroyRecognition | src/VoiceSearch.jsx:196-225 | afterwards no instance is held; with none held nothing changes (hence idempotent); otherwise the held instance is appended to the discarded ones, cancelled and with its handlers cleared, and nothing else changes |
| Session.StopListeningCompletely | src/VoiceSearch.jsx:228-248 | leaves the component torn down: not listening, no instance, loop off, tracks not live, exactly one delayed cleanup pending; a torn-down state is a fixed point; the context, analyser and volume are untouched; the discarded instances gain exactly the held one |
| Session.AggressiveAudioCleanup | src/VoiceSearch.jsx:117-193 | afterwards no stream, context or analyser is held, the loop is off and the volume is 0; the recognition side is untouched |
| Session.TimerFires | src/VoiceSearch.jsx:244-247 | with no timer pending nothing happens; otherwise the stream, context and analyser are gone, the volume is 0, the loop is off and one pending timer is consumed; the recognition side is untouched |
| Session.NewRecognition | src/VoiceSearch.jsx:366-377 | a fresh instance is single-shot, final results only, uses the configured language, has handlers set, and sets maxAlternatives = 3 exactly on Android |
| Session.StartVolumeAnalysis | src/VoiceSearch.jsx:302-346 | without an analyser nothing happens; with one, animation is on and a frame is pending; audio refs and recognition side are untouched |
| Session.ListeningEffect | src/VoiceSearch.jsx:349-355 | once listening, animation is on, and a frame is pending iff one already was or an analyser is held off Android |
| Session.SetupAudioAnalyzer | src/VoiceSearch.jsx:251-299 | nothing happens on Android; a context is held afterwards iff one was held before or, off Android, an AudioContext constructor exists, so it is created before the microphone is requested and survives a refused microphone; with everything granted the stream is live and context, analyser and loop are running; a new stream only ever comes with a context and an analyser; without media devices or microphone permission, with no context and no AudioContext constructor, or when resuming a suspended context fails, the stream and analyser refs stay as they were and the loop is stopped; the recognition side is untouched |
| Session.BeginListening | src/VoiceSearch.jsx:497-510 | after a successful `start()` the component listens and animates; on Android the audio refs are untouched |
| Session.LaunchRecognition | src/VoiceSearch.jsx:495-515 | the new instance takes the next id; a throwing `start()` reports the start failure and tears down, stopping the tracks while keeping the context, analyser and volume; otherwise the component listens silently |
| Session.StartListening | src/VoiceSearch.jsx:484-515 | the previous instance (if any) is discarded with its handlers cleared before the new one is held; construction failure reports "not available", holds nothing and leaves the audio refs, volume and loop untouched; a throwing `start()` keeps the context, analyser and volume; Android never touches the analyser or context |
| Session.ToggleListening | src/VoiceSearch.jsx:476-517 | outside a browser nothing happens; while listening it performs the full teardown silently; while idle it is the start branch |
| Session.Step | src/VoiceSearch.jsx:614-626 | a click reaches `toggleListening` exactly when the component is mounted and support is reported, because only then is the button rendered; a recognition event of an instance whose handlers `destroyRecognition` cleared (src/VoiceSearch.jsx:208-220) changes nothing; unmount leaves the component unmounted silently; only clicks and recognition events report or search |
| Session.ExtractTranscript | src/VoiceSearch.jsx:380-387 | absent or empty results mean no speech; a first result without alternatives means extraction fails; otherwise the transcript of the first alternative of the first result, even if empty |
| Session.OnResult | src/VoiceSearch.jsx:380-394 | always tears down; no results report no speech and never search; a result searches with the first transcript, followed by the processing-failed report iff `handleSearch` throws; a result without alternatives reports processing failed |
| Session.OnError | src/VoiceSearch.jsx:396-422 | always tears down; reports at most one message, and that message is the classification of the code |
| Session.OnEnd | src/VoiceSearch.jsx:424-426 | tears down and reports nothing |
| Session.OnNoMatch | src/VoiceSearch.jsx:428-433 | tears down; reports the no-match message iff not on Android |
| Session.AnimationFrameFires | src/VoiceSearch.jsx:311-342 | a frame without a pending callback changes nothing; the loop continues exactly when a frame is pending, an analyser is held, animation is on and the buffer is readable, and then stores that buffer's normalised volume; otherwise the volume is kept; on a pending frame, animation stays on exactly when the loop continues; mounting, discarded instances and ids are untouched |
| Session.UnmountComponent | src/VoiceSearch.jsx:443-451 | after unmount nothing listens, the held instance (if any) is discarded with its handlers cleared, the loop is off, live tracks are stopped with the ref kept and no delayed cleanup is pending; context, analyser, volume and the next id are left as they were |
| SessionProofs.RetireKeepsInert | src/VoiceSearch.jsx:196-225 | appending an inert instance whose id is above every discarded id keeps the discarded list inert, ordered and below the next id |
| SessionProofs.DestroyKeepsValid | src/VoiceSearch.jsx:196-225 | discarding the held instance keeps every discarded instance inert and the ids fresh and ordered |
| SessionProofs.TeardownKeepsValid | src/VoiceSearch.jsx:228-248 | a teardown from a mounted state satisfies the full invariant |
| SessionProofs.ToggleKeepsValid | src/VoiceSearch.jsx:476-517 | a click keeps the full invariant, including id freshness of the new instance |
| SessionProofs.HandlerKeepsValid | src/VoiceSearch.jsx:380-433 | a result, error, end or no-match handler that is still attached keeps the full invariant |
| SessionProofs.StepPreservesValid | src/VoiceSearch.jsx:86-517 | every event keeps the invariant: one live instance at most, every instance ever created either held or discarded with its handlers cleared, fresh ids, no live microphone and no loop while idle, at most one pending cleanup, volume in [0, 100], no audio resource on Android |
| SessionProofs.RunPreservesValid | src/VoiceSearch.jsx:86-517 | every event trace from a valid state ends in a valid state |
| SessionProofs.ReachableValid | src/VoiceSearch.jsx:38-51 | every state reachable from mount is valid |
| SessionProofs.OnlyHeldInstanceIsLive | src/VoiceSearch.jsx:484-486 | in a valid state, the only instance whose handlers can fire is the held one |
| SessionProofs.StaleEventsIgnored | src/VoiceSearch.jsx:208-220 | an event from an instance that is not held changes nothing and reports nothing |
| SessionProofs.TerminalEventsReturnToIdle | src/VoiceSearch.jsx:380-433 | a result, error, end or no-match event of the held instance leaves the component idle and torn down |
| SessionProofs.AndroidNeverMeters | src/VoiceSearch.jsx:500-510 | on Android no trace ever acquires a stream, context or analyser, and the volume loop never runs |
| SessionProofs.PulseInRangeWhileListening | src/VoiceSearch.jsx:519-521 | in every valid listening state the ring scale lies in [1, 2] and its opacity in [0.2, 0.5] |
| SessionProofs.UnmountIsFinal | src/VoiceSearch.jsx:443-451 | after unmount every further trace leaves the state unchanged and reports nothing |
| SessionProofs.UnsupportedStaysDormant | src/VoiceSearch.jsx:614-626 | without support no trace from a dormant state starts a session, acquires the microphone or reports anything |
| SessionProofs.UnsupportedNeverAcquires | src/VoiceSearch.jsx:21-26 | without a recognition constructor no trace from mount ever listens, holds a stream or reports anything |
| SessionProofs.IdleClickStarts | src/VoiceSearch.jsx:484-510 | on any supported non-Android browser with everything granted, a click on the idle control holds a new instance with the next id, keeps the discarded ones, and runs the microphone, context, analyser and loop silently |
| SessionProofs.FirstClickListens | src/VoiceSearch.jsx:484-503 | on any supported non-Android browser, the first click holds instance 0 and runs the microphone, context, analyser and loop |
| SessionProofs.NotAllowedScenario | src/VoiceSearch.jsx:406-421 | a click followed by "not-allowed" reports the access-denied message and leaves the component idle with stopped tracks |
| SessionProofs.ResultScenario | src/VoiceSearch.jsx:380-392 | a click followed by a result calls `handleSearch` exactly once with the transcript and leaves the component idle |
| SessionProofs.TwoClicks | src/VoiceSearch.jsx:476-493 | after click, click, the component is idle and valid, instance 0 is the only discarded one, the next id is 1, and one delayed cleanup is pending |
| SessionProofs.ThreeClicks | src/VoiceSearch.jsx:476-517 | after click, click, click, instance 1 is listening with live stream, context and analyser, instance 0 is the only discarded one, and the second click's delayed cleanup is pending |
| SessionProofs.RestartScenario | src/VoiceSearch.jsx:480-486 | after click, click, click and a late end event from the first instance, instance 1 is listening and instance 0 is discarded and inert |
| SessionProofs.DelayedCleanupHitsNewSession | src/VoiceSearch.jsx:239-247 | stop then restart within the delay: when the first session's timer fires, session 1 is still listening but holds no stream, context or analyser and its loop is off |
| SessionProofs.ClickThenUnmount | src/VoiceSearch.jsx:443-451 | unmounting a listening session gives a valid unmounted state with the context still held and no delayed cleanup pending |
| SessionProofs.UnmountLeavesContextOpen | src/VoiceSearch.jsx:443-451 | after a session and an unmount, the audio context stays held for every later trace |
| Hydration.Suppressed | ssr-solution/suppressHydrationWarning.js:17-29 | only a call whose first argument is a non-empty string can be suppressed; a missing, falsy or non-string first argument never is |
| Hydration.SuppressedIffMarker | ssr-solution/suppressHydrationWarning.js:17-29 | a call is suppressed iff its first argument is a string containing one of the five markers; the falsy test adds nothing for strings |
| Hydration.DecisionDependsOnFirstArgOnly | ssr-solution/suppressHydrationWarning.js:17-29 | two calls with the same first argument are treated alike |
| Hydration.Deliver | ssr-solution/suppressHydrationWarning.js:15-34 | a call reaches the original logger with its arguments unchanged, or not at all, and it is dropped iff a filter is installed and the call is suppressed |
| Hydration.FilterStacksIdempotently | ssr-solution/suppressHydrationWarning.js:15-34 | a filter installed over a filter delivers exactly what one filter does |
| Hydration.Install | ssr-solution/suppressHydrationWarning.js:12-15 | the captured logger is the one in place, and the filter wraps it |
| Hydration.Cleanup | ssr-solution/suppressHydrationWarning.js:37-39 | the cleanup puts back the captured logger |
| Hydration.InstallThenCleanupRestores | ssr-solution/suppressHydrationWarning.js:12-39 | install followed by cleanup is the identity, also for properly nested pairs |
| Hydration.CleanupOutOfOrderLeavesFilter | ssr-solution/suppressHydrationWarning.js:12-39 | two installs cleaned up in installation order leave a filter in place |
| Hydration.InnerName | ssr-solution/suppressHydrationWarning.js:52 | the wrapped name is the non-empty `displayName`, else the non-empty `name`, else "Component"; it is never empty |
| Hydration.DisplayName | ssr-solution/suppressHydrationWarning.js:52-53 | the display name is "WithSuppressHydration(" + the wrapped name + ")" |
| Hydration.DisplayNameRoundTrip | ssr-solution/suppressHydrationWarning.js:52-53 | reading the wrapped name back out of the display name gives the wrapped name |
| Hydration.MergeProps | ssr-solution/suppressHydrationWarning.js:49 | the wrapped component gets every caller prop unchanged plus `suppressHydrationWarning`, which is `true` unless the caller supplied it |

## Left out

- Rendering: JSX, style objects, CSS class strings, `DefaultMicIcon`, `pulseColor` and PropTypes. They are presentation with no behaviour to state.
- The Android pulse interval (src/VoiceSearch.jsx:457-474). It is a cosmetic one-second toggle.
- Host APIs have no model of their own; each becomes a parameter of the event that reaches it. This covers `SpeechRecognition`, `AudioContext`, `getUserMedia`, `requestAnimationFrame` and `setTimeout`. Timing is reduced to explicit `CleanupTimer` and `AnimationFrame` events.
- `permissions.revoke`, the `getUserMedia({audio: false})` probe and the throwaway AudioContext in `aggressiveAudioCleanup` leave no trace in the refs, so they are not represented. Neither is clearing the tracks' `onended`/`onmute`/`onunmute`.
- Session.SetupAudioAnalyzer: the `await`s are taken as one atomic step, and the `isListening` effect is applied right after it. For the flags modelled, the final state is the same in either order. Interleavings with other events during the `await` are not modelled. The invariant that no microphone is live and no loop runs while idle (`SessionProofs.StepPreservesValid`) rests on this atomicity. In the code, a stop during `await getUserMedia` (src/VoiceSearch.jsx:277-295) is followed by storing a live stream (line 281) after the teardown. If the prompt ends within 300 ms, the analyser is created and the loop starts; the pending delayed cleanup then stops the stream and clears the analyser. If the prompt outlasts 300 ms, the delayed cleanup has already set the context ref to null (lines 156-163), so `createAnalyser` at line 284 throws into the catch at line 296: no analyser is created and no loop starts, but the stored stream stays live. If the next session's `getUserMedia` succeeds, line 281 overwrites that ref without stopping the old tracks, so they are never stopped.
- Session.ListeningEffect: only the `isListening === true` half of the effect is modelled. The `false` half repeats `cleanupAnimation`, which every teardown already performs.
- React `setState` is an immediate update. The mount effects are taken to have run before the first event, so `isAndroid` and support are read from `Env`.
- The `Error` callback is taken not to throw. Inside `onresult` the only `Error` call in the `try` is the no-speech report (src/VoiceSearch.jsx:386). If it threw, the catch would report processing-failed once after it (line 390). If that call threw too, the exception would leave the handler after the `finally` teardown (line 392). If it threw inside `onerror` (src/VoiceSearch.jsx:401-417), inside `onnomatch` (src/VoiceSearch.jsx:430) or in the start-failure catch (src/VoiceSearch.jsx:513), the `stopListeningCompletely` after it (lines 421, 432 and 514) would be skipped. The component would then stay listening with the instance held, so `SessionProofs.TerminalEventsReturnToIdle` and the start-failure contract of Session.LaunchRecognition hold only under this assumption.
- Strings.ToLower: lower-cases ASCII letters only, not full Unicode `toLowerCase`. Every marker it is compared with is ASCII.
- Volume.NormalizedVolume: JavaScript numbers are exact reals. IEEE rounding is not modelled. NaN cannot arise, because the buffer always has 128 bins.
- Hydration.Truthy: NaN is not a modelled value, and a non-string `displayName` is not modelled.
- `console` logging and the `typeof window` guard inside the hook are not modelled.
- ssr-solution/_app.js and ssr-solution/layout.js only call the hook and are not part of this model.

=== FILE: detection.dfy ===
/**
 Capability detection, run once when the component mounts
 (src/VoiceSearch.jsx:53-84). Everything the browser would supply is an
 input: whether a speech-recognition constructor exists on `window`, the
 outcome of user-agent parsing, and the raw user-agent string.
 */
module Detection {
  import opened Wrappers
  import opened Strings

  /** What the user-agent parser produced: a browser name (possibly undefined),
      or an exception that sends detection to the substring fallback. */
  datatype ParseOutcome = Parsed(browserName: Option<string>) | ParserThrew

  /** `name?.includes(marker)`: an undefined name matches nothing. */
  predicate NameIncludes(name: Option<string>, marker: string) {
    name.Some? && Contains(name.value, marker)
  }

  /** The browser is one of the two engines whose recognition is distrusted: judged on the
      parsed name (case-sensitive) when parsing succeeded, otherwise on the lower-cased
      user agent. */
  function IsFirefoxOrOpera(parse: ParseOutcome, userAgent: string): (r: bool)
    ensures parse.Parsed? ==>
              (r <==> NameIncludes(parse.browserName, "Firefox") || NameIncludes(parse.browserName, "Opera"))
    ensures parse.ParserThrew? ==>
              (r <==> Contains(ToLower(userAgent), "firefox") || Contains(ToLower(userAgent), "opera"))
  {
    match parse
    case Parsed(name) => NameIncludes(name, "Firefox") || NameIncludes(name, "Opera")
    case ParserThrew =>
      var ua := ToLower(userAgent);
      Contains(ua, "firefox") || Contains(ua, "opera")
  }

  /** `isSpeechRecognitionSupported` after the mount effect. Outside a browser the effect
      returns early and the state keeps its initial `false`. */
  function IsSupported(isBrowser: bool, hasRecognitionCtor: bool, parse: ParseOutcome, userAgent: string): (r: bool)
    ensures r <==> isBrowser && hasRecognitionCtor && !IsFirefoxOrOpera(parse, userAgent)
  {
    if !isBrowser then false
    else hasRecognitionCtor && !IsFirefoxOrOpera(parse, userAgent)
  }

  /** `isAndroid` after the mount effect: `/android/` matched against the lower-cased user agent. */
  function IsAndroid(isBrowser: bool, userAgent: string): (r: bool)
    ensures r <==> isBrowser && exists i :: OccursAt(ToLower(userAgent), "android", i)
  {
    isBrowser && Contains(ToLower(userAgent), "android")
  }

  /** Android detection ignores letter case: the user agent and its lower-cased form agree. */
  lemma AndroidDetectionIgnoresCase(isBrowser: bool, userAgent: string)
    ensures IsAndroid(isBrowser, ToLower(userAgent)) == IsAndroid(isBrowser, userAgent)
  {
    ToLowerIdempotent(userAgent);
  }

  /** A user agent spelling "Android" in any capitalisation is detected as Android. */
  lemma AndroidInAnyCase(userAgent: string, at: nat)
    requires at + 7 <= |userAgent|
    requires forall k :: 0 <= k < 7 ==> LowerChar(userAgent[at + k]) == "android"[k]
    ensures IsAndroid(true, userAgent)
  {
    LoweredOccurrence(userAgent, "android", at);
  }

  /** The parser path is case-sensitive while the fallback is not: a parsed name "firefox"
      is not excluded, but the same word in a user agent is excluded when the parser throws. */
  lemma ParserPathIsCaseSensitive()
    ensures IsSupported(true, true, Parsed(Some("firefox")), "firefox")
    ensures !IsSupported(true, true, ParserThrew, "Mozilla Firefox")
  {
    assert "firefox"[..7] != "Firefox" by {
      assert "firefox"[0] != "Firefox"[0];
    }
    assert !Contains("firefox", "Opera");
    assert ToLower("Mozilla Firefox")[8..15] == "firefox";
    assert OccursAt(ToLower("Mozilla Firefox"), "firefox", 8);
  }

  /** The fallback test ignores letter case: a user agent and its lower-cased form are judged
      alike. */
  lemma FallbackIgnoresCase(userAgent: string)
    ensures IsFirefoxOrOpera(ParserThrew, ToLower(userAgent)) == IsFirefoxOrOpera(ParserThrew, userAgent)
  {
    ToLowerIdempotent(userAgent);
  }

  /** When the parser throws, "firefox" or "opera" in any capitalisation anywhere in the user
      agent marks the browser as excluded, so recognition is unsupported. */
  lemma FallbackExcludesAnyCase(isBrowser: bool, hasRecognitionCtor: bool, userAgent: string, word: string, at: nat)
    requires word == "firefox" || word == "opera"
    requires at + |word| <= |userAgent|
    requires forall k :: 0 <= k < |word| ==> LowerChar(userAgent[at + k]) == word[k]
    ensures IsFirefoxOrOpera(ParserThrew, userAgent)
    ensures !IsSupported(isBrowser, hasRecognitionCtor, ParserThrew, userAgent)
  {
    LoweredOccurrence(userAgent, word, at);
  }
}

=== FILE: hydration.dfy ===
/**
 The hydration-warning helpers (ssr-solution/suppressHydrationWarning.js):
 the `console.error` filter installed by `useSuppressHydrationWarning`, its
 cleanup, and the `withSuppressHydration` higher-order component's display
 name and prop merge.
 */
module Hydration {
  import opened Wrappers
  import opened Strings

  /** The JavaScript values a logger argument or a prop can hold, as far as the filter can tell
      them apart. */
  datatype JsValue = Str(text: string) | Num(n: int) | Bool(b: bool) | Undefined | Null | Obj(ref: nat)

  /** JavaScript truthiness (NaN is not modelled). */
  predicate Truthy(v: JsValue) {
    match v
    case Str(t) => t != ""
    case Num(n) => n != 0
    case Bool(b) => b
    case Undefined => false
    case Null => false
    case Obj(_) => true
  }

  /** The substrings that mark a message as a hydration warning. */
  const Markers: seq<string> := [
    "Warning: Text content did not match",
    "Warning: Prop",
    "Warning: Attribute",
    "hydrat",
    "__gchrome_remoteframetoken"
  ]

  /** `args[0]`, which is `undefined` when there are no arguments. */
  function FirstArg(args: seq<JsValue>): JsValue {
    if |args| == 0 then Undefined else args[0]
  }

  /** The filter's test: the first argument is a truthy string containing one of the markers. */
  function Suppressed(args: seq<JsValue>): (r: bool)
    ensures r ==> |args| > 0 && args[0].Str? && args[0].text != ""
  {
    var first := FirstArg(args);
    && Truthy(first) && first.Str?
    && (|| Contains(first.text, "Warning: Text content did not match")
        || Contains(first.text, "Warning: Prop")
        || Contains(first.text, "Warning: Attribute")
        || Contains(first.text, "hydrat")
        || Contains(first.text, "__gchrome_remoteframetoken"))
  }

  /** Exactly the string first arguments containing some marker are dropped; the truthiness
      test adds nothing, since the empty string contains no marker. */
  lemma SuppressedIffMarker(args: seq<JsValue>)
    ensures Suppressed(args) <==>
              |args| > 0 && args[0].Str? && exists k :: 0 <= k < |Markers| && Contains(args[0].text, Markers[k])
  {
    if |args| > 0 && args[0].Str? {
      var t := args[0].text;
      if t == "" {
        forall k | 0 <= k < |Markers|
          ensures !Contains(t, Markers[k])
        {
          assert |Markers[k]| > 0;
        }
      }
      if k :| 0 <= k < |Markers| && Contains(t, Markers[k]) {
        assert k == 0 || k == 1 || k == 2 || k == 3 || k == 4;
      }
      assert Contains(t, Markers[0]) || Contains(t, Markers[1]) || Contains(t, Markers[2])
             || Contains(t, Markers[3]) || Contains(t, Markers[4]) ==>
             exists k :: 0 <= k < |Markers| && Contains(t, Markers[k]);
    }
  }

  /** The suppress-or-forward decision looks at the first argument only. */
  lemma DecisionDependsOnFirstArgOnly(args: seq<JsValue>, other: seq<JsValue>)
    requires FirstArg(args) == FirstArg(other)
    ensures Suppressed(args) <==> Suppressed(other)
  {
  }

  /** What `console.error` currently is: a logger the page started with, or the filter wrapped
      around the logger it captured when it was installed. */
  datatype Logger = Base(id: nat) | Filter(captured: Logger)

  /** The calls that reach the page's own logger when `console.error(...args)` is made: the
      arguments go through unchanged, or not at all. */
  function Deliver(logger: Logger, args: seq<JsValue>): (r: seq<seq<JsValue>>)
    ensures r == [] || r == [args]
    ensures r == [] <==> logger.Filter? && Suppressed(args)
  {
    match logger
    case Base(_) => [args]
    case Filter(captured) => if Suppressed(args) then [] else Deliver(captured, args)
  }

  /** Installing the filter twice (a second mount, or two components using the hook) filters
      exactly as installing it once. */
  lemma {:induction false} FilterStacksIdempotently(logger: Logger, args: seq<JsValue>)
    ensures Deliver(Filter(Filter(logger)), args) == Deliver(Filter(logger), args)
  {
  }

  datatype Console = Console(error: Logger)

  /** The effect's set-up: capture `console.error` and replace it by the filter. */
  datatype Installed = Installed(console: Console, captured: Logger)

  function Install(c: Console): (r: Installed)
    ensures r.captured == c.error
    ensures r.console.error == Filter(c.error)
  {
    Installed(Console(Filter(c.error)), c.error)
  }

  /** The effect's cleanup: put back the captured logger. */
  function Cleanup(c: Console, captured: Logger): (r: Console)
    ensures r.error == captured
  {
    c.(error := captured)
  }

  /** Installing and cleaning up, in either single or properly nested pairs, gives back the
      console that was there before. */
  lemma InstallThenCleanupRestores(c: Console)
    ensures var i := Install(c); Cleanup(i.console, i.captured) == c
    ensures var outer := Install(c);
            var inner := Install(outer.console);
            Cleanup(Cleanup(inner.console, inner.captured), outer.captured) == c
  {
  }

  /** Cleanups that run in installation order instead of reverse order leave a filter behind. */
  lemma CleanupOutOfOrderLeavesFilter(c: Console)
    ensures var first := Install(c);
            var second := Install(first.console);
            Cleanup(Cleanup(second.console, first.captured), second.captured).error == Filter(c.error)
  {
  }

  /** What `withSuppressHydration` knows of the wrapped component. */
  datatype ComponentInfo = ComponentInfo(displayName: Option<string>, name: string)

  const WrapperPrefix := "WithSuppressHydration("
  const WrapperSuffix := ")"

  /** `Component.displayName || Component.name || "Component"`: empty strings are skipped. */
  function InnerName(c: ComponentInfo): (r: string)
    ensures r != ""
    ensures c.displayName.Some? && c.displayName.value != "" ==> r == c.displayName.value
    ensures (c.displayName.None? || c.displayName.value == "") && c.name != "" ==> r == c.name
    ensures (c.displayName.None? || c.displayName.value == "") && c.name == "" ==> r == "Component"
  {
    if c.displayName.Some? && c.displayName.value != "" then c.displayName.value
    else if c.name != "" then c.name
    else "Component"
  }

  /** The wrapper's `displayName`. */
  function DisplayName(c: ComponentInfo): (r: string)
    ensures |r| == |WrapperPrefix| + |InnerName(c)| + |WrapperSuffix|
    ensures r[..|WrapperPrefix|] == WrapperPrefix
    ensures r[|r| - |WrapperSuffix|..] == WrapperSuffix
    ensures r[|WrapperPrefix|..|r| - |WrapperSuffix|] == InnerName(c)
  {
    WrapperPrefix + InnerName(c) + WrapperSuffix
  }

  /** Reads the wrapped component's name back out of a wrapper display name. */
  function WrappedName(displayName: string): (r: Option<string>)
    ensures r.Some? ==> WrapperPrefix + r.value + WrapperSuffix == displayName
  {
    if |displayName| >= |WrapperPrefix| + |WrapperSuffix|
       && displayName[..|WrapperPrefix|] == WrapperPrefix
       && displayName[|displayName| - |WrapperSuffix|..] == WrapperSuffix
    then
      var inner := displayName[|WrapperPrefix|..|displayName| - |WrapperSuffix|];
      assert WrapperPrefix + inner + WrapperSuffix == displayName;
      Some(inner)
    else None
  }

  /** The display name determines the name it wraps. */
  lemma DisplayNameRoundTrip(c: ComponentInfo)
    ensures WrappedName(DisplayName(c)) == Some(InnerName(c))
  {
  }

  const SuppressKey := "suppressHydrationWarning"

  /** The props the wrapped component receives: `suppressHydrationWarning={true}` followed by
      the caller's props, so a caller-supplied value wins. */
  function MergeProps(props: map<string, JsValue>): (r: map<string, JsValue>)
    ensures r.Keys == props.Keys + {SuppressKey}
    ensures forall k :: k in props ==> r[k] == props[k]
    ensures SuppressKey !in props ==> r[SuppressKey] == Bool(true)
  {
    map[SuppressKey := Bool(true)] + props
  }
}

=== FILE: messages.dfy ===
/**
 The user-facing strings the component passes to its `Error` callback, and
 the classification of speech-recognition outcomes into those strings
 (src/VoiceSearch.jsx:380-433, 488-491, 511-514).
 */
module Messages {
  import opened Wrappers

  const NoSpeech := "No speech was detected. Please try again."
  const AudioCapture := "Microphone not found or not working properly."
  const NotAllowed := "Microphone access denied. Please allow microphone access."
  const NetworkFailure := "Network error occurred. Please check your connection."
  const GenericFailure := "Speech recognition error. Please try again."
  const NoMatch := "Could not recognize what you said. Please try again."
  const ProcessingFailed := "Failed to process speech. Please try again."
  const NotAvailable := "Speech recognition not available. Please try a different browser."
  const StartFailed := "Failed to start speech recognition. Please try again."

  /** The error codes with a message of their own, as a reference table. */
  const KnownCodes: map<string, string> := map[
    "no-speech" := NoSpeech,
    "audio-capture" := AudioCapture,
    "not-allowed" := NotAllowed,
    "network" := NetworkFailure
  ]

  /** The code a user-initiated abort produces; it is never reported. */
  const Aborted := "aborted"

  /** What the `onerror` handler reports for `event.error`, or None when it reports nothing. */
  function ErrorMessage(code: string, isAndroid: bool): (r: Option<string>)
    ensures code in KnownCodes ==> r == Some(KnownCodes[code])
    ensures code == Aborted ==> r == None
    ensures code !in KnownCodes && code != Aborted ==>
              (r.Some? <==> !isAndroid) && (r.Some? ==> r.value == GenericFailure)
  {
    match code
    case "no-speech" => Some(NoSpeech)
    case "audio-capture" => Some(AudioCapture)
    case "not-allowed" => Some(NotAllowed)
    case "network" => Some(NetworkFailure)
    case "aborted" => None
    case _ => if !isAndroid then Some(GenericFailure) else None
  }

  /** What the `onnomatch` handler reports: the no-match message, except on Android. */
  function NoMatchMessage(isAndroid: bool): (r: Option<string>)
    ensures r.Some? <==> !isAndroid
    ensures r.Some? ==> r.value == NoMatch
  {
    if isAndroid then None else Some(NoMatch)
  }

  /** The platform only matters for codes outside the table: a listed code or an abort is
      reported identically on Android and elsewhere, and only an unlisted code is silenced. */
  lemma AndroidSilencesOnlyUnlistedCodes(code: string)
    ensures ErrorMessage(code, true) != ErrorMessage(code, false) <==> code !in KnownCodes && code != Aborted
  {
  }

  /** Distinct listed codes are reported with distinct messages, none of them the generic one. */
  lemma KnownMessagesDistinct(c1: string, c2: string)
    requires c1 in KnownCodes && c2 in KnownCodes && c1 != c2
    ensures KnownCodes[c1] != KnownCodes[c2]
    ensures KnownCodes[c1] != GenericFailure
  {
  }
}

=== FILE: session.dfy ===
/**
 The capture-session lifecycle of the VoiceSearch component
 (src/VoiceSearch.jsx:86-248, 250-359, 361-451, 476-517) as an immutable
 state record and one pure transition per event.

 The record holds what the component keeps in React state and refs: the
 `isListening` flag, the recognition instance in `recognitionRef`, the
 microphone stream, audio context and analyser refs, the animation flags,
 the volume, and the number of pending delayed-cleanup timers. Every browser
 call is replaced by its effect on these refs, and what the browser decides
 (whether a constructor exists, whether `start()` throws, whether the
 microphone is granted, what a recognition event carries) is a parameter of
 the event that triggers it.
 */
module Session {
  import opened Wrappers
  import Messages
  import Volume
  import Detection
  import Strings

  /** How `createNewRecognition` configures an instance. `maxAlternatives` is None when the
      platform default is left in place. */
  datatype Config = Config(continuous: bool, interimResults: bool, lang: string, maxAlternatives: Option<nat>)

  /** A recognition instance, identified by creation order. `handlersAttached` is whether its
      result/error/end/no-match handlers are still set; `cancelled` whether `abort()` and
      `stop()` have been called on it. */
  datatype Recognition = Recognition(id: nat, config: Config, handlersAttached: bool, cancelled: bool)

  /** The ref to the microphone stream: empty, holding a stream with live tracks, or holding a
      stream whose tracks have been stopped and disabled. */
  datatype Stream = NoStream | Live | Stopped

  datatype State = State(
    mounted: bool,
    listening: bool,
    recognition: Option<Recognition>,
    /** Every instance discarded so far, in the order it was discarded. */
    retired: seq<Recognition>,
    nextId: nat,
    stream: Stream,
    context: bool,
    analyser: bool,
    animating: bool,
    frameScheduled: bool,
    volume: real,
    pendingCleanups: nat)

  /** What the component knows about its host once the mount effects have run: whether `window`
      exists, whether a recognition constructor was found, whether recognition counts as
      supported (the control is rendered only then), whether the device is Android, and the
      `language` prop. */
  datatype Env = Env(
    isBrowser: bool,
    hasRecognitionCtor: bool,
    supported: bool,
    isAndroid: bool,
    language: string)

  /** The environment the two mount effects establish from what the host offers. */
  function MountEnv(isBrowser: bool, hasRecognitionCtor: bool, parse: Detection.ParseOutcome, userAgent: string, language: string): (e: Env)
    ensures e.supported <==> isBrowser && hasRecognitionCtor && !Detection.IsFirefoxOrOpera(parse, userAgent)
    ensures e.isAndroid <==> isBrowser && exists i :: Strings.OccursAt(Strings.ToLower(userAgent), "android", i)
    ensures e.isBrowser == isBrowser && e.hasRecognitionCtor == hasRecognitionCtor && e.language == language
  {
    Env(isBrowser, hasRecognitionCtor,
        Detection.IsSupported(isBrowser, hasRecognitionCtor, parse, userAgent),
        Detection.IsAndroid(isBrowser, userAgent),
        language)
  }

  /** What a transition makes visible to the embedding application: a call of the `Error`
      callback or a call of `handleSearch`. */
  datatype Effect = Report(message: string) | Search(transcript: string)

  /** The browser's answers during `setupAudioAnalyzer`: whether an AudioContext can be created,
      whether resuming an existing one succeeds, whether `mediaDevices.getUserMedia` exists, and
      whether the user grants the microphone. */
  datatype AudioSetup = AudioSetup(contextAvailable: bool, resumeSucceeds: bool, mediaDevices: bool, micGranted: bool)

  /** One alternative of a recognition result. */
  datatype Alternative = Alternative(transcript: string)

  /** What `onresult` extracts from `event.results`. */
  datatype Extraction = Transcript(text: string) | NoResults | ExtractionFailed

  datatype Event =
    | Toggle(constructs: bool, startThrows: bool, audio: AudioSetup)
    | RecognitionResult(target: nat, results: Option<seq<seq<Alternative>>>, searchThrows: bool)
    | RecognitionError(target: nat, code: string)
    | RecognitionEnd(target: nat)
    | RecognitionNoMatch(target: nat)
    | CleanupTimer
    | AnimationFrame(data: Option<Volume.Spectrum>)
    | Unmount

  datatype Transition = Transition(next: State, effects: seq<Effect>)

  /** The events a recognition instance raises, addressed to it by id. */
  predicate IsRecognitionEvent(e: Event) {
    e.RecognitionResult? || e.RecognitionError? || e.RecognitionEnd? || e.RecognitionNoMatch?
  }

  /** The state right after mount: idle, nothing held, nothing pending. */
  function Initial(): State {
    State(true, false, None, [], 0, NoStream, false, false, false, false, 0.0, 0)
  }

  /** The state a full teardown leaves behind. */
  predicate IsTornDown(s: State) {
    && !s.listening
    && s.recognition.None?
    && !s.animating
    && !s.frameScheduled
    && s.stream != Live
    && s.pendingCleanups == 1
  }

  /** The audio refs and volume agree between two states. */
  predicate SameAudio(a: State, b: State) {
    a.stream == b.stream && a.context == b.context && a.analyser == b.analyser && a.volume == b.volume
  }

  /** `cleanupAnimation`: cancel the pending frame and stop the loop. */
  function CleanupAnimation(s: State): (r: State)
    ensures !r.animating && !r.frameScheduled
    ensures !s.animating && !s.frameScheduled ==> r == s
    ensures SameAudio(r, s) && r.listening == s.listening && r.recognition == s.recognition
    ensures r.retired == s.retired && r.mounted == s.mounted && r.nextId == s.nextId
    ensures r.pendingCleanups == s.pendingCleanups
  {
    s.(animating := false, frameScheduled := false)
  }

  /** `cleanupAudioTracks`: stop and disable the tracks of the held stream; the ref is kept. */
  function CleanupAudioTracks(s: State): (r: State)
    ensures r.stream != Live
    ensures s.stream == Live ==> r.stream == Stopped
    ensures s.stream != Live ==> r == s
    ensures r.context == s.context && r.analyser == s.analyser && r.volume == s.volume
    ensures r.animating == s.animating && r.frameScheduled == s.frameScheduled
    ensures r.listening == s.listening && r.recognition == s.recognition && r.retired == s.retired
    ensures r.mounted == s.mounted && r.nextId == s.nextId && r.pendingCleanups == s.pendingCleanups
  {
    if s.stream == Live then s.(stream := Stopped) else s
  }

  /** An instance as `destroyRecognition` leaves it: aborted, stopped, every handler cleared. */
  function Retire(rec: Recognition): (r: Recognition)
    ensures r.id == rec.id && r.config == rec.config && !r.handlersAttached && r.cancelled
  {
    rec.(handlersAttached := false, cancelled := true)
  }

  /** The instances a `destroyRecognition` on `s` discards: the held one, if any. */
  function Discarded(s: State): seq<Recognition> {
    if s.recognition.Some? then [Retire(s.recognition.value)] else []
  }

  /** `destroyRecognition`: abort and stop the held instance, clear its handlers, drop the ref. */
  function DestroyRecognition(s: State): (r: State)
    ensures r.recognition.None?
    ensures s.recognition.None? ==> r == s
    ensures r.retired == s.retired + Discarded(s)
    ensures SameAudio(r, s) && r.listening == s.listening && r.nextId == s.nextId
    ensures r.animating == s.animating && r.frameScheduled == s.frameScheduled
    ensures r.mounted == s.mounted && r.pendingCleanups == s.pendingCleanups
  {
    match s.recognition
    case None => s
    case Some(rec) => s.(recognition := None, retired := s.retired + [Retire(rec)])
  }

  /** `stopListeningCompletely`: leave listening, destroy the instance, stop the animation and
      the microphone tracks, and replace any pending delayed cleanup by a fresh one. */
  function StopListeningCompletely(s: State): (r: State)
    ensures IsTornDown(r)
    ensures IsTornDown(s) ==> r == s
    ensures s.stream == Live ==> r.stream == Stopped
    ensures s.stream != Live ==> r.stream == s.stream
    ensures r.context == s.context && r.analyser == s.analyser && r.volume == s.volume
    ensures r.mounted == s.mounted && r.nextId == s.nextId
    ensures r.retired == s.retired + Discarded(s)
  {
    var a := DestroyRecognition(s.(listening := false));
    var b := CleanupAudioTracks(CleanupAnimation(a));
    // clearTimeout on the previous timer, then setTimeout: one timer pending
    b.(pendingCleanups := 1)
  }

  /** `aggressiveAudioCleanup`, run by the delayed timer. It acts on whatever the refs hold when
      it fires. Revoking the microphone permission and opening and closing a throwaway
      AudioContext leave no trace in the refs. */
  function AggressiveAudioCleanup(s: State): (r: State)
    ensures r.stream == NoStream && !r.context && !r.analyser
    ensures !r.animating && !r.frameScheduled && r.volume == 0.0
    ensures r.listening == s.listening && r.recognition == s.recognition && r.retired == s.retired
    ensures r.mounted == s.mounted && r.nextId == s.nextId && r.pendingCleanups == s.pendingCleanups
  {
    CleanupAnimation(s).(stream := NoStream, context := false, analyser := false, volume := 0.0)
  }

  /** The 300 ms timer firing; with no timer pending nothing happens. */
  function TimerFires(s: State): (r: State)
    ensures s.pendingCleanups == 0 ==> r == s
    ensures s.pendingCleanups > 0 ==>
              && r.stream == NoStream && !r.context && !r.analyser && r.volume == 0.0
              && !r.animating && !r.frameScheduled && r.pendingCleanups == s.pendingCleanups - 1
    ensures r.listening == s.listening && r.recognition == s.recognition && r.retired == s.retired
    ensures r.mounted == s.mounted && r.nextId == s.nextId
  {
    if s.pendingCleanups == 0 then s
    else AggressiveAudioCleanup(s).(pendingCleanups := s.pendingCleanups - 1)
  }

  /** `createNewRecognition` on success: single-shot, final results only, the configured
      language, and three alternatives on Android. */
  function NewRecognition(id: nat, env: Env): (r: Recognition)
    ensures r.id == id && r.handlersAttached && !r.cancelled
    ensures !r.config.continuous && !r.config.interimResults && r.config.lang == env.language
    ensures r.config.maxAlternatives.Some? <==> env.isAndroid
    ensures r.config.maxAlternatives.Some? ==> r.config.maxAlternatives.value == 3
  {
    Recognition(id, Config(false, false, env.language, if env.isAndroid then Some(3) else None), true, false)
  }

  /** `startVolumeAnalysis`: with an analyser held, (re)start the frame loop. */
  function StartVolumeAnalysis(s: State): (r: State)
    ensures !s.analyser ==> r == s
    ensures s.analyser ==> r.animating && r.frameScheduled
    ensures SameAudio(r, s) && r.listening == s.listening && r.recognition == s.recognition
    ensures r.retired == s.retired && r.mounted == s.mounted && r.nextId == s.nextId
    ensures r.pendingCleanups == s.pendingCleanups
  {
    if !s.analyser then s else s.(animating := true, frameScheduled := true)
  }

  /** `setupAudioAnalyzer`, taken as one step: reuse or create the AudioContext, acquire the
      microphone, wire an analyser and start the loop. Every failure is swallowed and leaves
      whatever was acquired before it. */
  function SetupAudioAnalyzer(s: State, env: Env, audio: AudioSetup): (r: State)
    ensures env.isAndroid ==> r == s
    ensures r.listening == s.listening && r.recognition == s.recognition && r.retired == s.retired
    ensures r.mounted == s.mounted && r.nextId == s.nextId && r.pendingCleanups == s.pendingCleanups
    ensures r.volume == s.volume
    ensures r.context <==> s.context || (!env.isAndroid && audio.contextAvailable)
    ensures !env.isAndroid && audio.contextAvailable && audio.resumeSucceeds && audio.mediaDevices && audio.micGranted ==>
              r.stream == Live && r.context && r.analyser && r.animating && r.frameScheduled
    ensures !env.isAndroid && !(audio.mediaDevices && audio.micGranted) ==>
              r.stream == s.stream && r.analyser == s.analyser && !r.animating && !r.frameScheduled
    ensures !env.isAndroid && !s.context && !audio.contextAvailable ==>
              !r.context && r.stream == s.stream && r.analyser == s.analyser && !r.animating && !r.frameScheduled
    ensures !env.isAndroid && s.context && !audio.resumeSucceeds ==>
              r.stream == s.stream && r.analyser == s.analyser && !r.animating && !r.frameScheduled
    ensures r.stream != s.stream ==> r.stream == Live && r.analyser && r.context
    ensures (s.frameScheduled ==> s.analyser) ==> (r.frameScheduled ==> r.analyser)
  {
    if env.isAndroid then s
    else
      var a := CleanupAnimation(s);
      if !a.context && !audio.contextAvailable then a
      else if a.context && !audio.resumeSucceeds then a
      else
        var b := a.(context := true);
        if !audio.mediaDevices || !audio.micGranted then b
        else StartVolumeAnalysis(b.(stream := Live, analyser := true))
  }

  /** The `isListening` effect once listening has become true: mark the loop as animating and
      start it on an analyser that is held but idle, except on Android. */
  function ListeningEffect(s: State, env: Env): (r: State)
    ensures r.animating
    ensures r.frameScheduled <==> s.frameScheduled || (s.analyser && !env.isAndroid)
    ensures SameAudio(r, s) && r.listening == s.listening && r.recognition == s.recognition
    ensures r.retired == s.retired && r.mounted == s.mounted && r.nextId == s.nextId
    ensures r.pendingCleanups == s.pendingCleanups
  {
    var a := s.(animating := true);
    if a.analyser && !a.frameScheduled && !env.isAndroid then StartVolumeAnalysis(a) else a
  }

  /** The successful end of `toggleListening`: `start()` returned, so listening begins, the
      meter is set up (except on Android) and the `isListening` effect runs. */
  function BeginListening(s: State, env: Env, audio: AudioSetup): (r: State)
    ensures r.listening && r.animating
    ensures r.recognition == s.recognition && r.retired == s.retired && r.nextId == s.nextId
    ensures r.mounted == s.mounted && r.pendingCleanups == s.pendingCleanups && r.volume == s.volume
    ensures env.isAndroid ==> r.stream == s.stream && r.context == s.context && r.analyser == s.analyser
    ensures r.stream != s.stream ==> r.stream == Live && r.analyser && r.context
    ensures (s.frameScheduled ==> s.analyser) ==> (r.frameScheduled ==> r.analyser)
    ensures s.analyser ==> r.analyser
  {
    var c := s.(listening := true);
    var d := if env.isAndroid then c else SetupAudioAnalyzer(c, env, audio);
    ListeningEffect(d, env)
  }

  /** Creating the instance succeeded: hold it and call `start()`; a throwing `start()` is
      reported and the new instance is torn down again. */
  function LaunchRecognition(s: State, env: Env, startThrows: bool, audio: AudioSetup): (r: Transition)
    ensures r.next.nextId == s.nextId + 1
    ensures startThrows ==>
              && r.effects == [Report(Messages.StartFailed)] && IsTornDown(r.next)
              && r.next.retired == s.retired + [Retire(NewRecognition(s.nextId, env))]
    ensures !startThrows ==>
              && r.effects == [] && r.next.listening && r.next.animating
              && r.next.recognition == Some(NewRecognition(s.nextId, env)) && r.next.retired == s.retired
    ensures env.isAndroid ==> r.next.analyser == s.analyser && r.next.context == s.context
    ensures env.isAndroid && s.stream != Live ==> r.next.stream == s.stream
    ensures startThrows ==> r.next.context == s.context && r.next.analyser == s.analyser && r.next.volume == s.volume
    ensures startThrows && s.stream == Live ==> r.next.stream == Stopped
    ensures startThrows && s.stream != Live ==> r.next.stream == s.stream
  {
    var b := s.(recognition := Some(NewRecognition(s.nextId, env)), nextId := s.nextId + 1);
    if startThrows then
      Transition(StopListeningCompletely(b), [Report(Messages.StartFailed)])
    else
      Transition(BeginListening(b, env, audio), [])
  }

  /** The idle branch of `toggleListening`: discard any held instance, then create a fresh one
      and start it. A missing or throwing constructor is reported and nothing is held. */
  function StartListening(s: State, env: Env, constructs: bool, startThrows: bool, audio: AudioSetup): (r: Transition)
    ensures !(env.hasRecognitionCtor && constructs) ==>
              && r.effects == [Report(Messages.NotAvailable)]
              && r.next.recognition.None? && r.next.listening == s.listening
              && r.next.retired == s.retired + Discarded(s)
              && r.next.pendingCleanups == s.pendingCleanups && r.next.nextId == s.nextId
    ensures env.hasRecognitionCtor && constructs && startThrows ==>
              && r.effects == [Report(Messages.StartFailed)] && IsTornDown(r.next)
              && r.next.retired == s.retired + Discarded(s) + [Retire(NewRecognition(s.nextId, env))]
    ensures env.hasRecognitionCtor && constructs && !startThrows ==>
              && r.effects == [] && r.next.listening && r.next.animating
              && r.next.recognition == Some(NewRecognition(s.nextId, env))
              && r.next.retired == s.retired + Discarded(s)
    ensures env.hasRecognitionCtor && constructs ==> r.next.nextId == s.nextId + 1
    ensures env.isAndroid ==> r.next.analyser == s.analyser && r.next.context == s.context
    ensures env.isAndroid && s.stream != Live ==> r.next.stream == s.stream
    ensures !(env.hasRecognitionCtor && constructs) ==>
              SameAudio(r.next, s) && r.next.animating == s.animating && r.next.frameScheduled == s.frameScheduled
    ensures env.hasRecognitionCtor && constructs && startThrows ==>
              r.next.context == s.context && r.next.analyser == s.analyser && r.next.volume == s.volume
  {
    var a := DestroyRecognition(s);
    if !(env.hasRecognitionCtor && constructs) then
      Transition(a, [Report(Messages.NotAvailable)])
    else
      LaunchRecognition(a, env, startThrows, audio)
  }

  /** `toggleListening`: a full teardown while listening, otherwise a fresh start. Outside a
      browser it does nothing. */
  function ToggleListening(s: State, env: Env, constructs: bool, startThrows: bool, audio: AudioSetup): (r: Transition)
    ensures !env.isBrowser ==> r == Transition(s, [])
    ensures env.isBrowser && s.listening ==> r.effects == [] && IsTornDown(r.next)
    ensures env.isBrowser && !s.listening ==> r == StartListening(s, env, constructs, startThrows, audio)
  {
    if !env.isBrowser then Transition(s, [])
    else if s.listening then Transition(StopListeningCompletely(s), [])
    else StartListening(s, env, constructs, startThrows, audio)
  }

  /** What `onresult` reads from `event.results`: the first alternative of the first result.
      An absent or empty result list is "no speech"; a first result without alternatives makes
      the property access throw. The transcript is passed on even when it is empty. */
  function ExtractTranscript(results: Option<seq<seq<Alternative>>>): (r: Extraction)
    ensures r.NoResults? <==> results.None? || |results.value| == 0
    ensures r.ExtractionFailed? <==> results.Some? && |results.value| > 0 && |results.value[0]| == 0
    ensures r.Transcript? ==> r.text == results.value[0][0].transcript
  {
    match results
    case None => NoResults
    case Some(list) =>
      if |list| == 0 then NoResults
      else if |list[0]| == 0 then ExtractionFailed
      else Transcript(list[0][0].transcript)
  }

  /** The `onresult` handler: search with the transcript, or report why not, and tear down on
      every branch. A throwing `handleSearch` is reported after it was called. */
  function OnResult(s: State, results: Option<seq<seq<Alternative>>>, searchThrows: bool): (r: Transition)
    ensures IsTornDown(r.next)
    ensures r.next.context == s.context && r.next.analyser == s.analyser && r.next.volume == s.volume
    ensures results.None? || |results.value| == 0 ==> r.effects == [Report(Messages.NoSpeech)]
    ensures results.Some? && |results.value| > 0 && |results.value[0]| == 0 ==>
              r.effects == [Report(Messages.ProcessingFailed)]
    ensures results.Some? && |results.value| > 0 && |results.value[0]| > 0 ==>
              && |r.effects| >= 1
              && r.effects[0] == Search(results.value[0][0].transcript)
              && r.effects[1..] == (if searchThrows then [Report(Messages.ProcessingFailed)] else [])
  {
    var effects :=
      match ExtractTranscript(results)
      case Transcript(t) => [Search(t)] + (if searchThrows then [Report(Messages.ProcessingFailed)] else [])
      case NoResults => [Report(Messages.NoSpeech)]
      case ExtractionFailed => [Report(Messages.ProcessingFailed)];
    Transition(StopListeningCompletely(s), effects)
  }

  /** The `onerror` handler: report the classified message, if any, and tear down. */
  function OnError(s: State, env: Env, code: string): (r: Transition)
    ensures IsTornDown(r.next)
    ensures r.next.context == s.context && r.next.analyser == s.analyser && r.next.volume == s.volume
    ensures |r.effects| <= 1
    ensures r.effects == [] <==> Messages.ErrorMessage(code, env.isAndroid).None?
    ensures r.effects != [] ==> r.effects[0] == Report(Messages.ErrorMessage(code, env.isAndroid).value)
  {
    match Messages.ErrorMessage(code, env.isAndroid)
    case Some(m) => Transition(StopListeningCompletely(s), [Report(m)])
    case None => Transition(StopListeningCompletely(s), [])
  }

  /** The `onend` handler: tear down silently. */
  function OnEnd(s: State): (r: Transition)
    ensures IsTornDown(r.next) && r.effects == []
    ensures r.next.context == s.context && r.next.analyser == s.analyser && r.next.volume == s.volume
  {
    Transition(StopListeningCompletely(s), [])
  }

  /** The `onnomatch` handler: report that nothing was recognised, except on Android, and tear
      down. */
  function OnNoMatch(s: State, env: Env): (r: Transition)
    ensures IsTornDown(r.next)
    ensures r.next.context == s.context && r.next.analyser == s.analyser && r.next.volume == s.volume
    ensures env.isAndroid ==> r.effects == []
    ensures !env.isAndroid ==> r.effects == [Report(Messages.NoMatch)]
  {
    match Messages.NoMatchMessage(env.isAndroid)
    case Some(m) => Transition(StopListeningCompletely(s), [Report(m)])
    case None => Transition(StopListeningCompletely(s), [])
  }

  /** One iteration of `analyzeVolume`, run when its animation frame fires. It stops the loop
      when the analyser is gone, animation was switched off, or reading the buffer throws;
      otherwise it stores the normalised volume and schedules the next frame. */
  function AnimationFrameFires(s: State, data: Option<Volume.Spectrum>): (r: State)
    ensures !s.frameScheduled ==> r == s
    ensures r.frameScheduled <==> s.frameScheduled && s.analyser && s.animating && data.Some?
    ensures r.frameScheduled ==> r.volume == Volume.NormalizedVolume(data.value)
    ensures !r.frameScheduled ==> r.volume == s.volume
    ensures r.listening == s.listening && r.recognition == s.recognition && r.stream == s.stream
    ensures r.context == s.context && r.analyser == s.analyser && r.pendingCleanups == s.pendingCleanups
    ensures s.frameScheduled ==> r.animating == r.frameScheduled
    ensures r.mounted == s.mounted && r.retired == s.retired && r.nextId == s.nextId
  {
    if !s.frameScheduled then s
    else if !s.analyser || !s.animating then CleanupAnimation(s)
    else
      match data
      case None => CleanupAnimation(s)
      case Some(bins) => s.(volume := Volume.NormalizedVolume(bins), frameScheduled := true)
  }

  /** The unmount cleanup: stop the loop, tear down, then cancel the delayed cleanup it just
      scheduled. The audio context is therefore left as it was. */
  function UnmountComponent(s: State): (r: State)
    ensures !r.mounted && !r.listening && r.recognition.None?
    ensures !r.animating && !r.frameScheduled && r.stream != Live && r.pendingCleanups == 0
    ensures r.context == s.context && r.analyser == s.analyser && r.volume == s.volume
    ensures r.retired == s.retired + Discarded(s) && r.nextId == s.nextId
    ensures s.stream == Live ==> r.stream == Stopped
    ensures s.stream != Live ==> r.stream == s.stream
  {
    StopListeningCompletely(s.(animating := false)).(pendingCleanups := 0, mounted := false)
  }

  /** The instance with this id, held or discarded, still has its handlers set. */
  predicate HandlersLive(s: State, id: nat) {
    || (s.recognition.Some? && s.recognition.value.id == id && s.recognition.value.handlersAttached)
    || (exists i :: 0 <= i < |s.retired| && s.retired[i].id == id && s.retired[i].handlersAttached)
  }

  /** The effect of one event. Clicks reach `toggleListening` only while the control is rendered
      (mounted and supported); a recognition event runs a handler only if its instance still has
      handlers set, and that handler acts on the component's current refs. */
  function Step(s: State, env: Env, e: Event): (r: Transition)
    ensures e.Toggle? && !(s.mounted && env.supported) ==> r == Transition(s, [])
    ensures e.Toggle? && s.mounted && env.supported ==>
              r == ToggleListening(s, env, e.constructs, e.startThrows, e.audio)
    ensures IsRecognitionEvent(e) && !HandlersLive(s, e.target) ==> r == Transition(s, [])
    ensures e.Unmount? ==> !r.next.mounted && r.effects == []
    ensures r.effects != [] ==> e.Toggle? || IsRecognitionEvent(e)
  {
    match e
    case Toggle(constructs, startThrows, audio) =>
      if s.mounted && env.supported then ToggleListening(s, env, constructs, startThrows, audio)
      else Transition(s, [])
    case RecognitionResult(id, results, searchThrows) =>
      if HandlersLive(s, id) then OnResult(s, results, searchThrows) else Transition(s, [])
    case RecognitionError(id, code) =>
      if HandlersLive(s, id) then OnError(s, env, code) else Transition(s, [])
    case RecognitionEnd(id) =>
      if HandlersLive(s, id) then OnEnd(s) else Transition(s, [])
    case RecognitionNoMatch(id) =>
      if HandlersLive(s, id) then OnNoMatch(s, env) else Transition(s, [])
    case CleanupTimer => Transition(TimerFires(s), [])
    case AnimationFrame(data) => Transition(AnimationFrameFires(s, data), [])
    case Unmount => if s.mounted then Transition(UnmountComponent(s), []) else Transition(s, [])
  }

  /** A trace of events from `s`: the final state and every effect, in order. */
  function Run(s: State, env: Env, trace: seq<Event>): Transition
    decreases |trace|
  {
    if |trace| == 0 then Transition(s, [])
    else
      var first := Step(s, env, trace[0]);
      var rest := Run(first.next, env, trace[1..]);
      Transition(rest.next, first.effects + rest.effects)
  }

  /** Every discarded instance was cancelled and had its handlers cleared, and their ids
      increase and stay below `nextId`. */
  predicate RetiredInert(retired: seq<Recognition>, nextId: nat) {
    && (forall i :: 0 <= i < |retired| ==>
          !retired[i].handlersAttached && retired[i].cancelled && retired[i].id < nextId)
    && (forall i, j :: 0 <= i < j < |retired| ==> retired[i].id < retired[j].id)
  }

  /** The held instance is the only one with handlers set, and ids are fresh: the held one has
      a larger id than every discarded one. */
  predicate InstancesValid(s: State) {
    && (s.recognition.Some? ==>
          && s.recognition.value.handlersAttached
          && !s.recognition.value.cancelled
          && s.recognition.value.id < s.nextId
          && forall i :: 0 <= i < |s.retired| ==> s.retired[i].id < s.recognition.value.id)
    && RetiredInert(s.retired, s.nextId)
    && |s.retired| + (if s.recognition.Some? then 1 else 0) == s.nextId
  }

  /** The volume is a percentage, and on Android no audio resource is ever acquired. */
  predicate AudioValid(s: State, env: Env) {
    && 0.0 <= s.volume <= 100.0
    && (env.isAndroid ==> s.stream == NoStream && !s.context && !s.analyser)
  }

  /** The component's standing promises, as an invariant of every reachable state: the two
      above, at most one delayed cleanup pending, an instance held exactly while listening,
      no live microphone tracks and no volume loop while idle, a volume loop only with an
      analyser, and nothing listening or pending after unmount. */
  predicate Valid(s: State, env: Env) {
    && InstancesValid(s)
    && AudioValid(s, env)
    && s.pendingCleanups <= 1
    && (s.listening <==> s.recognition.Some?)
    && (!s.listening ==> s.stream != Live && !s.animating && !s.frameScheduled)
    && (s.frameScheduled ==> s.animating && s.analyser)
    && (!s.mounted ==> !s.listening && s.pendingCleanups == 0)
  }
}

=== FILE: session_proofs.dfy ===
/**
 Properties of the session state machine over single events and whole
 event traces (src/VoiceSearch.jsx:196-248, 361-451, 476-517).
 */
module SessionProofs {
  import opened Wrappers
  import opened Session
  import Messages
  import Volume
  import Detection

  /** The freshly mounted component satisfies the invariant. */
  lemma InitialValid(env: Env)
    ensures Valid(Initial(), env)
  {
  }

  /** Appending a cancelled, handler-free instance with a larger id keeps the discarded list
      inert and ordered. */
  lemma RetireKeepsInert(retired: seq<Recognition>, gone: Recognition, nextId: nat)
    requires RetiredInert(retired, nextId)
    requires !gone.handlersAttached && gone.cancelled && gone.id < nextId
    requires forall i :: 0 <= i < |retired| ==> retired[i].id < gone.id
    ensures RetiredInert(retired + [gone], nextId)
  {
    var r := retired + [gone];
    forall i, j | 0 <= i < j < |r|
      ensures r[i].id < r[j].id
    {
      if j == |retired| {
        assert r[i] == retired[i];
      } else {
        assert r[i] == retired[i] && r[j] == retired[j];
      }
    }
  }

  /** Discarding the held instance keeps the instance side of the invariant. */
  lemma DestroyKeepsValid(s: State)
    requires InstancesValid(s)
    ensures InstancesValid(DestroyRecognition(s))
  {
    if s.recognition.Some? {
      RetireKeepsInert(s.retired, Retire(s.recognition.value), s.nextId);
    }
  }

  /** A teardown from a mounted state satisfying the instance and audio parts of the invariant
      satisfies all of it. */
  lemma TeardownKeepsValid(s: State, env: Env)
    requires InstancesValid(s) && AudioValid(s, env) && s.mounted
    ensures Valid(StopListeningCompletely(s), env)
  {
    DestroyKeepsValid(s);
  }

  /** A click on the rendered control keeps the invariant. */
  lemma ToggleKeepsValid(s: State, env: Env, constructs: bool, startThrows: bool, audio: AudioSetup)
    requires Valid(s, env) && s.mounted
    ensures Valid(ToggleListening(s, env, constructs, startThrows, audio).next, env)
  {
    if env.isBrowser {
      if s.listening {
        TeardownKeepsValid(s, env);
      } else {
        assert s.recognition.None?;
        if env.hasRecognitionCtor && constructs {
          var created := NewRecognition(s.nextId, env);
          if startThrows {
            RetireKeepsInert(s.retired, Retire(created), s.nextId + 1);
          }
        }
      }
    }
  }

  /** A recognition handler that runs keeps the invariant. */
  lemma HandlerKeepsValid(s: State, env: Env, e: Event)
    requires Valid(s, env) && IsRecognitionEvent(e) && HandlersLive(s, e.target)
    ensures Valid(Step(s, env, e).next, env)
  {
    TeardownKeepsValid(s, env);
  }

  /** Every event keeps the invariant. */
  lemma StepPreservesValid(s: State, env: Env, e: Event)
    requires Valid(s, env)
    ensures Valid(Step(s, env, e).next, env)
  {
    match e
    case Toggle(constructs, startThrows, audio) =>
      if s.mounted && env.supported {
        ToggleKeepsValid(s, env, constructs, startThrows, audio);
      }
    case CleanupTimer =>
    case AnimationFrame(data) =>
      if s.frameScheduled && s.analyser && s.animating && data.Some? {
        Volume.VolumeRange(data.value);
      }
    case Unmount =>
      if s.mounted { TeardownKeepsValid(s.(animating := false), env); }
    case _ =>
      if HandlersLive(s, e.target) { HandlerKeepsValid(s, env, e); }
  }

  /** Every trace from a valid state ends in a valid state. */
  lemma {:induction false} RunPreservesValid(s: State, env: Env, trace: seq<Event>)
    requires Valid(s, env)
    ensures Valid(Run(s, env, trace).next, env)
    decreases |trace|
  {
    if |trace| > 0 {
      StepPreservesValid(s, env, trace[0]);
      RunPreservesValid(Step(s, env, trace[0]).next, env, trace[1..]);
    }
  }

  /** Every state reachable from mount is valid. */
  lemma {:induction false} ReachableValid(env: Env, trace: seq<Event>)
    ensures Valid(Run(Initial(), env, trace).next, env)
  {
    RunPreservesValid(Initial(), env, trace);
  }

  /** One recognition instance at a time: in a valid state the only instance whose handlers
      can fire is the held one. */
  lemma OnlyHeldInstanceIsLive(s: State, env: Env, id: nat)
    requires Valid(s, env)
    ensures HandlersLive(s, id) <==> s.recognition.Some? && s.recognition.value.id == id
  {
  }

  /** An event from an instance that is no longer held (a stale `onend` after an abort, say)
      changes nothing and reports nothing. */
  lemma StaleEventsIgnored(s: State, env: Env, e: Event)
    requires Valid(s, env) && IsRecognitionEvent(e)
    requires !(s.recognition.Some? && s.recognition.value.id == e.target)
    ensures Step(s, env, e) == Transition(s, [])
  {
    OnlyHeldInstanceIsLive(s, env, e.target);
  }

  /** Every terminal event of the held instance (result, error, end, no-match) returns the
      component to idle: not listening, no instance held, microphone tracks stopped, volume loop
      off, and one delayed cleanup pending. */
  lemma TerminalEventsReturnToIdle(s: State, env: Env, e: Event)
    requires Valid(s, env) && IsRecognitionEvent(e)
    requires s.recognition.Some? && s.recognition.value.id == e.target
    ensures IsTornDown(Step(s, env, e).next)
    ensures !Step(s, env, e).next.listening && Step(s, env, e).next.recognition.None?
  {
    OnlyHeldInstanceIsLive(s, env, e.target);
  }

  /** On Android no trace ever acquires a microphone stream, an audio context or an analyser,
      and the volume loop never runs. */
  lemma {:induction false} AndroidNeverMeters(env: Env, trace: seq<Event>)
    requires env.isAndroid
    ensures var r := Run(Initial(), env, trace).next;
            r.stream == NoStream && !r.context && !r.analyser && !r.frameScheduled
  {
    ReachableValid(env, trace);
  }

  /** While listening, the pulse ring's geometry scale stays in [1, 2] and its opacity in [0.2, 0.5]. */
  lemma PulseInRangeWhileListening(s: State, env: Env)
    requires Valid(s, env) && s.listening
    ensures 1.0 <= Volume.PulseSize(s.listening, s.volume) <= 2.0
    ensures 0.2 <= Volume.PulseOpacity(s.listening, s.volume) <= 0.5
  {
    Volume.PulseBounds(s.volume, s.volume);
  }

  /** After unmount every further event is inert: the state stays put and nothing is
      reported. */
  lemma {:induction false} UnmountIsFinal(s: State, env: Env, trace: seq<Event>)
    requires Valid(s, env) && !s.mounted
    ensures Run(s, env, trace) == Transition(s, [])
    decreases |trace|
  {
    if |trace| > 0 {
      var e := trace[0];
      if IsRecognitionEvent(e) {
        StaleEventsIgnored(s, env, e);
      }
      assert Step(s, env, e) == Transition(s, []);
      UnmountIsFinal(s, env, trace[1..]);
    }
  }

  /** Nothing has been started: no instance, no microphone, no audio graph. */
  predicate Dormant(s: State) {
    && !s.listening && s.recognition.None? && s.stream == NoStream && !s.context && !s.analyser
    && !s.animating && !s.frameScheduled
    && forall i :: 0 <= i < |s.retired| ==> !s.retired[i].handlersAttached
  }

  /** Without support the control is not rendered: from a dormant state no trace starts a
      session, acquires the microphone or reports anything. */
  lemma {:induction false} UnsupportedStaysDormant(s: State, env: Env, trace: seq<Event>)
    requires !env.supported && Dormant(s)
    ensures Dormant(Run(s, env, trace).next) && Run(s, env, trace).effects == []
    decreases |trace|
  {
    if |trace| > 0 {
      var e := trace[0];
      var t := Step(s, env, e);
      if IsRecognitionEvent(e) {
        assert !HandlersLive(s, e.target);
      }
      if e.Unmount? && s.mounted {
        assert t.next == UnmountComponent(s);
        assert t.next.retired == s.retired;
      }
      assert Dormant(t.next) && t.effects == [];
      UnsupportedStaysDormant(t.next, env, trace[1..]);
    }
  }

  /** A component mounted without recognition support never touches the microphone. */
  lemma {:induction false} UnsupportedNeverAcquires(
    isBrowser: bool, parse: Detection.ParseOutcome, userAgent: string, language: string, trace: seq<Event>)
    ensures var r := Run(Initial(), MountEnv(isBrowser, false, parse, userAgent, language), trace);
            r.effects == [] && !r.next.listening && r.next.stream == NoStream
  {
    UnsupportedStaysDormant(Initial(), MountEnv(isBrowser, false, parse, userAgent, language), trace);
  }

  /** Every audio request granted. */
  function AllGranted(): AudioSetup {
    AudioSetup(true, true, true, true)
  }

  /** A click whose constructor and `start()` both succeed. */
  function Click(): Event {
    Toggle(true, false, AllGranted())
  }

  /** A browser that can construct the recognition and is not Android. */
  predicate IsDesktop(env: Env) {
    env.isBrowser && env.hasRecognitionCtor && env.supported && !env.isAndroid
  }

  /** Running a trace runs its first event, then the rest. */
  lemma RunCons(s: State, env: Env, e: Event, rest: seq<Event>)
    ensures Run(s, env, [e] + rest)
            == var first := Step(s, env, e);
               var more := Run(first.next, env, rest);
               Transition(more.next, first.effects + more.effects)
  {
    assert ([e] + rest)[1..] == rest;
  }

  /** A one-event trace is that event's step. */
  lemma RunSingle(s: State, env: Env, e: Event)
    ensures Run(s, env, [e]) == Step(s, env, e)
  {
    RunCons(s, env, e, []);
    assert [e] + [] == [e];
  }

  /** Running two traces back to back is running their concatenation: the final state is the
      second run's, and the effects are the first run's followed by the second's. */
  lemma {:induction false} RunAppend(s: State, env: Env, a: seq<Event>, b: seq<Event>)
    ensures Run(s, env, a + b)
            == var first := Run(s, env, a);
               var more := Run(first.next, env, b);
               Transition(more.next, first.effects + more.effects)
    decreases |a|
  {
    if |a| == 0 {
      assert a + b == b;
    } else {
      assert (a + b)[0] == a[0];
      assert (a + b)[1..] == a[1..] + b;
      var first := Step(s, env, a[0]);
      RunAppend(first.next, env, a[1..], b);
      var mid := Run(first.next, env, a[1..]);
      var more := Run(mid.next, env, b);
      assert first.effects + (mid.effects + more.effects) == (first.effects + mid.effects) + more.effects;
    }
  }

  /** On a desktop where every request is granted, a click on the idle control holds a fresh
      instance with the next id and runs the microphone, context, analyser and volume loop. */
  lemma IdleClickStarts(s: State, env: Env)
    requires IsDesktop(env) && s.mounted && !s.listening && s.recognition.None?
    ensures var r := Step(s, env, Click());
            && r.effects == []
            && r.next.listening && r.next.recognition == Some(NewRecognition(s.nextId, env))
            && r.next.stream == Live && r.next.context && r.next.analyser && r.next.frameScheduled
            && r.next.retired == s.retired && r.next.nextId == s.nextId + 1
            && r.next.mounted && r.next.pendingCleanups == s.pendingCleanups
  {
    assert Step(s, env, Click()) == StartListening(s, env, true, false, AllGranted());
    var b := s.(recognition := Some(NewRecognition(s.nextId, env)), nextId := s.nextId + 1);
    assert StartListening(s, env, true, false, AllGranted()).next == BeginListening(b, env, AllGranted());
  }

  /** A click on the control while listening is the full teardown, silently. */
  lemma ListeningClickStops(s: State, env: Env, audio: AudioSetup)
    requires s.mounted && s.listening && env.isBrowser && env.supported
    ensures Step(s, env, Toggle(true, false, audio)) == Transition(StopListeningCompletely(s), [])
  {
  }

  /** The first click on a desktop starts instance 0 with the microphone live and metered. */
  lemma FirstClickListens(env: Env)
    requires IsDesktop(env)
    ensures var r := Step(Initial(), env, Click());
            && r.effects == []
            && r.next.listening && r.next.recognition == Some(NewRecognition(0, env))
            && r.next.stream == Live && r.next.context && r.next.analyser && r.next.frameScheduled
  {
    IdleClickStarts(Initial(), env);
  }

  /** Denied microphone access right after a click: the error callback gets the access-denied
      message, the component is idle again and the microphone tracks are stopped. */
  lemma NotAllowedScenario(env: Env)
    requires IsDesktop(env)
    ensures var r := Run(Initial(), env, [Click(), RecognitionError(0, "not-allowed")]);
            && r.effects == [Report(Messages.NotAllowed)]
            && !r.next.listening && r.next.recognition.None? && r.next.stream == Stopped
  {
    var e := RecognitionError(0, "not-allowed");
    IdleClickStarts(Initial(), env);
    var s1 := Step(Initial(), env, Click()).next;
    assert HandlersLive(s1, 0);
    assert Step(s1, env, e) == OnError(s1, env, "not-allowed");
    RunSingle(s1, env, e);
    RunCons(Initial(), env, Click(), [e]);
    assert [Click()] + [e] == [Click(), e];
  }

  /** A final result with a transcript calls `handleSearch` exactly once with it and ends the
      session. */
  lemma ResultScenario(env: Env, transcript: string)
    requires IsDesktop(env)
    ensures var r := Run(Initial(), env, [Click(), RecognitionResult(0, Some([[Alternative(transcript)]]), false)]);
            r.effects == [Search(transcript)] && !r.next.listening && r.next.recognition.None?
  {
    var results := Some([[Alternative(transcript)]]);
    var e := RecognitionResult(0, results, false);
    IdleClickStarts(Initial(), env);
    var s1 := Step(Initial(), env, Click()).next;
    assert HandlersLive(s1, 0);
    assert ExtractTranscript(results) == Transcript(transcript);
    assert Step(s1, env, e) == OnResult(s1, results, false);
    RunSingle(s1, env, e);
    RunCons(Initial(), env, Click(), [e]);
    assert [Click()] + [e] == [Click(), e];
  }

  /** Click, click on a desktop: session 0 is started and torn down again, leaving the
      component idle with one delayed cleanup pending. */
  lemma TwoClicks(env: Env)
    requires IsDesktop(env)
    ensures var r := Run(Initial(), env, [Click(), Click()]);
            && r.effects == [] && Valid(r.next, env)
            && r.next.mounted && !r.next.listening && r.next.recognition.None? && r.next.nextId == 1
            && r.next.retired == [Retire(NewRecognition(0, env))] && r.next.pendingCleanups == 1
  {
    IdleClickStarts(Initial(), env);
    var s1 := Step(Initial(), env, Click()).next;
    ListeningClickStops(s1, env, AllGranted());
    RunPreservesValid(Initial(), env, [Click(), Click()]);
    RunSingle(s1, env, Click());
    RunCons(Initial(), env, Click(), [Click()]);
    assert [Click()] + [Click()] == [Click(), Click()];
  }

  /** Click, click, click on a desktop: session 0 is started and torn down, session 1 is
      listening with a live microphone and audio graph, and the delayed cleanup scheduled by the
      second click is still pending. */
  lemma ThreeClicks(env: Env)
    requires IsDesktop(env)
    ensures var r := Run(Initial(), env, [Click(), Click(), Click()]);
            && r.effects == [] && Valid(r.next, env)
            && r.next.listening && r.next.recognition == Some(NewRecognition(1, env))
            && r.next.retired == [Retire(NewRecognition(0, env))]
            && r.next.stream == Live && r.next.context && r.next.analyser && r.next.pendingCleanups == 1
  {
    TwoClicks(env);
    var s2 := Run(Initial(), env, [Click(), Click()]).next;
    IdleClickStarts(s2, env);
    StepPreservesValid(s2, env, Click());
    RunSingle(s2, env, Click());
    RunAppend(Initial(), env, [Click(), Click()], [Click()]);
    assert [Click(), Click()] + [Click()] == [Click(), Click(), Click()];
  }

  /** Click, click, click: the second click tears session 0 down, the third starts an
      independent session 1, and a late `end` event from session 0 does not touch it. */
  lemma RestartScenario(env: Env)
    requires IsDesktop(env)
    ensures var r := Run(Initial(), env, [Click(), Click(), Click(), RecognitionEnd(0)]);
            && r.effects == []
            && r.next.listening && r.next.recognition.Some? && r.next.recognition.value.id == 1
            && r.next.retired == [Retire(NewRecognition(0, env))]
  {
    var clicks := [Click(), Click(), Click()];
    ThreeClicks(env);
    var s3 := Run(Initial(), env, clicks).next;
    StaleEventsIgnored(s3, env, RecognitionEnd(0));
    RunSingle(s3, env, RecognitionEnd(0));
    RunAppend(Initial(), env, clicks, [RecognitionEnd(0)]);
    assert clicks + [RecognitionEnd(0)] == [Click(), Click(), Click(), RecognitionEnd(0)];
  }

  /** The delayed cleanup acts on whatever the refs hold when it fires. A stop followed by a
      new start within the delay lets the timer of the old session remove the new session's
      microphone stream, audio context and analyser while it is still listening. */
  lemma DelayedCleanupHitsNewSession(env: Env)
    requires IsDesktop(env)
    ensures var r := Run(Initial(), env, [Click(), Click(), Click(), CleanupTimer]).next;
            && r.listening && r.recognition.Some? && r.recognition.value.id == 1
            && r.stream == NoStream && !r.context && !r.analyser && !r.animating
  {
    var clicks := [Click(), Click(), Click()];
    ThreeClicks(env);
    var s3 := Run(Initial(), env, clicks).next;
    assert Step(s3, env, CleanupTimer).next == AggressiveAudioCleanup(s3).(pendingCleanups := 0);
    RunSingle(s3, env, CleanupTimer);
    RunAppend(Initial(), env, clicks, [CleanupTimer]);
    assert clicks + [CleanupTimer] == [Click(), Click(), Click(), CleanupTimer];
  }

  /** Unmounting right after the first click leaves a valid, unmounted state whose audio context
      is still open and whose delayed cleanup has been cancelled. */
  lemma ClickThenUnmount(env: Env)
    requires IsDesktop(env)
    ensures var r := Step(Step(Initial(), env, Click()).next, env, Unmount).next;
            Valid(r, env) && !r.mounted && !r.listening && r.context && r.pendingCleanups == 0
  {
    IdleClickStarts(Initial(), env);
    var s1 := Step(Initial(), env, Click()).next;
    assert Step(s1, env, Unmount) == Transition(UnmountComponent(s1), []);
    InitialValid(env);
    StepPreservesValid(Initial(), env, Click());
    StepPreservesValid(s1, env, Unmount);
  }

  /** Unmounting while listening cancels the delayed cleanup it has just scheduled, so the audio
      context acquired by the session is never closed. */
  lemma UnmountLeavesContextOpen(env: Env, trace: seq<Event>)
    requires IsDesktop(env)
    ensures var r := Run(Initial(), env, [Click(), Unmount] + trace).next;
            !r.mounted && !r.listening && r.context && r.pendingCleanups == 0
  {
    ClickThenUnmount(env);
    var s1 := Step(Initial(), env, Click()).next;
    var s2 := Step(s1, env, Unmount).next;
    UnmountIsFinal(s2, env, trace);
    RunCons(s1, env, Unmount, trace);
    RunCons(Initial(), env, Click(), [Unmount] + trace);
    assert [Click()] + ([Unmount] + trace) == [Click(), Unmount] + trace;
  }
}

=== FILE: strings.dfy ===
/**
 Substring search and ASCII lower-casing: the two string operations the
 component's detection code relies on (`includes`, `indexOf(..) > -1`,
 a regular expression with no metacharacters, and `toLowerCase`).
 */
module Strings {

  /** `p` occurs in `s` starting at index `i`. */
  ghost predicate OccursAt(s: string, p: string, i: int) {
    0 <= i && i + |p| <= |s| && s[i..i + |p|] == p
  }

  /** `s.includes(p)`: `p` occurs somewhere in `s` (the empty string occurs everywhere). */
  function Contains(s: string, p: string): (r: bool)
    ensures r <==> exists i :: OccursAt(s, p, i)
    decreases |s|
  {
    if |p| > |s| then
      false
    else if s[..|p|] == p then
      assert OccursAt(s, p, 0);
      true
    else
      OccurrenceShift(s, p);
      Contains(s[1..], p)
  }

  /** When `p` is not a prefix of `s`, its occurrences in `s` are exactly its occurrences in
      `s[1..]`, shifted by one. */
  lemma OccurrenceShift(s: string, p: string)
    requires |p| <= |s| && s[..|p|] != p
    ensures (exists i :: OccursAt(s, p, i)) <==> (exists j :: OccursAt(s[1..], p, j))
  {
    if i :| OccursAt(s, p, i) {
      assert i != 0;
      assert s[1..][i - 1..i - 1 + |p|] == s[i..i + |p|];
      assert OccursAt(s[1..], p, i - 1);
    }
    if j :| OccursAt(s[1..], p, j) {
      assert s[1..][j..j + |p|] == s[j + 1..j + 1 + |p|];
      assert OccursAt(s, p, j + 1);
    }
  }

  /** An upper-case ASCII letter. */
  predicate IsUpper(c: char) {
    'A' <= c <= 'Z'
  }

  /** ASCII lower-casing of one character; every other character is unchanged. */
  function LowerChar(c: char): char {
    if IsUpper(c) then (c as int - 'A' as int + 'a' as int) as char else c
  }

  /** `s.toLowerCase()` restricted to ASCII letters. */
  function ToLower(s: string): (r: string)
    ensures |r| == |s|
    ensures forall i :: 0 <= i < |s| ==> !IsUpper(r[i])
    ensures forall i :: 0 <= i < |s| && !IsUpper(s[i]) ==> r[i] == s[i]
    ensures forall i :: 0 <= i < |s| && IsUpper(s[i]) ==> r[i] as int == s[i] as int + 32
  {
    seq(|s|, i requires 0 <= i < |s| => LowerChar(s[i]))
  }

  /** Characters of `s` that lower-case one by one to `p` are an occurrence of `p` in the
      lower-cased `s`, whatever their capitalisation. */
  lemma LoweredOccurrence(s: string, p: string, at: nat)
    requires at + |p| <= |s|
    requires forall k :: 0 <= k < |p| ==> LowerChar(s[at + k]) == p[k]
    ensures OccursAt(ToLower(s), p, at)
  {
    var lowered := ToLower(s);
    forall k | 0 <= k < |p|
      ensures lowered[at..at + |p|][k] == p[k]
    {
      assert lowered[at + k] == LowerChar(s[at + k]);
    }
    assert lowered[at..at + |p|] == p;
  }

  /** Lower-casing twice is lower-casing once. */
  lemma ToLowerIdempotent(s: string)
    ensures ToLower(ToLower(s)) == ToLower(s)
  {
  }

  /** Lower-casing distributes over slicing. */
  lemma ToLowerSlice(s: string, i: int, j: int)
    requires 0 <= i <= j <= |s|
    ensures ToLower(s)[i..j] == ToLower(s[i..j])
  {
  }

  /** An occurrence survives lower-casing of both text and pattern: the search is case-insensitive
      once both sides are lower-cased. */
  lemma ContainsLowered(s: string, p: string)
    requires Contains(s, p)
    ensures Contains(ToLower(s), ToLower(p))
  {
    var i :| OccursAt(s, p, i);
    ToLowerSlice(s, i, i + |p|);
    assert OccursAt(ToLower(s), ToLower(p), i);
  }
}

=== FILE: volume.dfy ===
/**
 The volume meter's arithmetic (src/VoiceSearch.jsx:284-286, 318-330) and the
 pulse-ring geometry derived from it (src/VoiceSearch.jsx:519-521). JavaScript
 numbers are modelled as exact reals.
 */
module Volume {

  /** One unsigned byte of `getByteFrequencyData`. */
  type Byte = b: int | 0 <= b < 256

  /** The analyser's FFT window; the frequency buffer holds half as many bins. */
  const FftSize: nat := 256
  const FrequencyBinCount: nat := FftSize / 2

  /** Scale applied to the mean bin magnitude before clamping. */
  const Gain: real := 1.5

  /** The buffer read on every animation frame: always exactly `frequencyBinCount` bytes. */
  type Spectrum = s: seq<Byte> | |s| == FrequencyBinCount witness seq(128, _ => 0)

  /** Total magnitude across the bins. */
  function Sum(bins: seq<Byte>): nat {
    if |bins| == 0 then 0 else Sum(bins[..|bins| - 1]) + bins[|bins| - 1]
  }

  /** Every bin is silent. */
  predicate Silent(bins: seq<Byte>) {
    forall i :: 0 <= i < |bins| ==> bins[i] == 0
  }

  /** The total is zero exactly when every bin is zero, and never exceeds 255 per bin. */
  lemma {:induction false} SumBounds(bins: seq<Byte>)
    ensures Sum(bins) == 0 <==> Silent(bins)
    ensures Sum(bins) <= 255 * |bins|
  {
    if |bins| > 0 {
      var init := bins[..|bins| - 1];
      SumBounds(init);
      assert forall i :: 0 <= i < |init| ==> init[i] == bins[i];
    }
  }

  function Min(a: real, b: real): real { if a <= b then a else b }
  function Max(a: real, b: real): real { if a >= b then a else b }

  /** `Math.min(100, Math.max(0, avg * 1.5))` with `avg` the mean bin magnitude. */
  function NormalizedVolume(bins: Spectrum): (v: real)
    ensures 0.0 <= v <= 100.0
    ensures Silent(bins) ==> v == 0.0
  {
    SumBounds(bins);
    var avg := Sum(bins) as real / |bins| as real;
    Min(100.0, Max(0.0, avg * Gain))
  }

  /** The normalised volume is a percentage; it is zero exactly for a silent buffer, and
      saturates at 100 exactly when the mean magnitude reaches 200/3. */
  lemma VolumeRange(bins: Spectrum)
    ensures 0.0 <= NormalizedVolume(bins) <= 100.0
    ensures NormalizedVolume(bins) == 0.0 <==> Silent(bins)
    ensures NormalizedVolume(bins) == 100.0 <==> 3 * Sum(bins) >= 200 * |bins|
  {
    SumBounds(bins);
    var total := Sum(bins) as real;
    assert |bins| as real == 128.0;
    assert total / 128.0 * Gain == total * 3.0 / 256.0;
  }

  /** The frame loop as written: sum the bins with an index loop, then average, scale and clamp. */
  method MeasureVolume(bins: Spectrum) returns (v: real)
    ensures v == NormalizedVolume(bins)
    ensures 0.0 <= v <= 100.0
  {
    var sum: nat := 0;
    var i := 0;
    while i < |bins|
      invariant 0 <= i <= |bins|
      invariant sum == Sum(bins[..i])
    {
      assert bins[..i + 1][..i] == bins[..i];
      sum := sum + bins[i];
      i := i + 1;
    }
    assert bins[..i] == bins;
    var avg := sum as real / |bins| as real;
    v := Min(100.0, Max(0.0, avg * Gain));
    VolumeRange(bins);
  }

  /** `pulseSize`: the ring's scale factor. */
  function PulseSize(isListening: bool, volume: real): (r: real)
    ensures !isListening ==> r == 1.0
    ensures isListening ==> r >= 1.0
    ensures isListening && 0.0 <= volume ==> r == 1.0 + volume / 100.0
  {
    if isListening then Max(1.0, 1.0 + volume / 100.0) else 1.0
  }

  /** `pulseOpacity`: the ring's opacity. */
  function PulseOpacity(isListening: bool, volume: real): (r: real)
    ensures !isListening ==> r == 0.0
    ensures isListening ==> r <= 0.5
    ensures isListening && volume <= 60.0 ==> r == volume / 200.0 + 0.2
  {
    if isListening then Min(0.5, volume / 200.0 + 0.2) else 0.0
  }

  /** While listening with a volume in range, the ring scales between 1 and 2 and its opacity
      stays between 0.2 and 0.5; both grow with the volume. */
  lemma PulseBounds(volume: real, louder: real)
    requires 0.0 <= volume <= louder <= 100.0
    ensures 1.0 <= PulseSize(true, volume) <= PulseSize(true, louder) <= 2.0
    ensures 0.2 <= PulseOpacity(true, volume) <= PulseOpacity(true, louder) <= 0.5
    ensures PulseSize(true, volume) == 1.0 <==> volume == 0.0
  {
  }
}

=== FILE: wrappers.dfy ===
/** The optional-value type shared by every module of the model. */
module Wrappers {

  /** A value that may be missing: JavaScript's `undefined`/`null` in the component. */
  datatype Option<+T> = None | Some(value: T)
}
